=== FILE: README.md ===
# Option-request layer of Neovim's option API

This project models, in Dafny, the layer of Neovim's `src/nvim/api/options.c` that turns an
API caller's option request into a scope decision and then reads or writes the option. It
covers four parts:

- **The request validator.** `validate_option_value_args` parses the optional keys `scope`,
  `win`, `buf` and `filetype` into a scope (0, OPT_LOCAL or OPT_GLOBAL), a requested scope
  kind (Global, Win or Buf) and a target. It enforces the exclusivity rules in the code's
  order. It then checks the option's attributes against the target.
- **The capability calculus.** `get_option_attrs` computes the GLOBAL, WIN and BUF attribute
  bits. `option_has_scope` decides whether an option has a value at a given scope.
- **The context switcher.** `switch_option_context` and `restore_option_context` move the
  process-wide current window and buffer. They are used by the accessors
  `get_option_value_strict`, `get_option_value_for` and `set_option_value_for`.
- **The entry points.** `nvim_get_option_value` (including the dummy filetype buffer of
  `do_ft_buf`), `nvim_set_option_value` and the target selection of
  `nvim_get_option_info2`.

The error slot `Error *err` is part of the modelled state. It is carried through every step
and is never turned into a return value. This matters because the validator records
"Unknown option" and "cannot be passed" errors but still returns OK. Every later step tests
the slot. A buffer or window switch that happens while an error is already recorded is
then not undone (`Context.PriorErrorSkipsRestore`, `Context.PriorErrorSkipsWindowRestore`,
`Requests.SetLeaksBufferOnOptionError`, `Requests.SetOnWindowOptionErrorSkipsRestore`).
Likewise, the dummy filetype buffer is neither restored nor wiped when the validator
recorded an option error or the FileType autocommands left one
(`Requests.GetWithFiletypeLeaksOnOptionError`, `Requests.GetWithFiletypeLeaksOnAutocmdError`).
The model keeps this behaviour as written. The restoration property it proves is the
conditional one the code gives: a get without `filetype`, or a set, ends on the window and
buffer it started on whenever the slot was empty after validation; a get with `filetype`
and a clean validation does so too, unless the dummy buffer was made and its autocommands
left an error.

The code's order is followed throughout. The window and buffer handle lookups run before
the three exclusivity checks. The exclusivity checks run in this order:
1. `filetype` against `buf`, `scope` or `win`;
2. `scope` against `buf`;
3. `buf` against `win`.

Layout:
- `option_types.dfy` (module `OptionTypes`): option values, registry rows, request keys,
  errors, and the storage cells that stand in for the option storage of `nvim/option.c`.
- `capability.dfy` (module `Capability`): `get_option_attrs` and `option_has_scope`.
- `validator.dfy` (module `Validator`): the validator as a function, with its properties.
- `context.dfy` (module `Context`): the switch and restore steps and the three accessors as
  functions over the editor state, with their properties.
- `requests.dfy` (module `Requests`): the entry points as functions, with their properties.
- `editor.dfy` (module `Editor`): class `Editor`, whose fields are the current window and
  buffer, the buffer list, the option storage and the error slot. Its methods run each
  operation step by step. Each method is proved equal to the function that specifies it.

Collaborators outside this file are parameters of the model. They are gathered in
`Context.Oracle`:
- whether `switch_win_noblock` succeeds;
- the error `try_end` records after a failed switch, if any. When it records none, an error
  already in the slot is kept, and only an empty slot gets "Problem while switching windows";
- whether `buflist_new` allocates;
- the buffer-local values the FileType autocommands set, and any error they leave;
- the error message of the option setter.

## Model

| member | source | states |
|---|---|---|
| OptionTypes.FindOption | src/nvim/api/options.c:82 | the index is the first table row with that name, or kOptInvalid when no row has it |
| OptionTypes.ReadSlot | src/nvim/api/options.c:482-483 | a read returns a value only for a visible option; for a visible option it returns exactly what the global slot, or the local slot of the current buffer or window, holds when that slot is stored |
| OptionTypes.ReadAfterWrite | src/nvim/api/options.c:503-556 | a value written at a scope (or at no scope) is what a read at that scope returns |
| OptionTypes.LocalShadowsGlobal | src/nvim/api/options.c:135-138 | a read with no scope returns the local value if the current buffer or window has one, and otherwise the global value; a stored local value shadows the global one |
| Capability.AttrsOf | src/nvim/api/options.c:395-420 | the attributes are 0 exactly for kOptInvalid, a hidden option, or an `indir` that is neither PV_NONE nor has any flag; WIN and BUF are never both set |
| Capability.GetOptionAttrs | src/nvim/api/options.c:395-420 | 0 for an invalid index or a hidden option; GLOBAL iff `indir` is PV_NONE or has PV_BOTH; WIN iff PV_WIN; BUF iff PV_BUF and not PV_WIN |
| Capability.OptionHasScope | src/nvim/api/options.c:428-454 | there is no value for an invalid or hidden option; a TTY option has a value only at Global scope |
| Capability.AttrsAgreeWithScope | src/nvim/api/options.c:395-454 | for a visible option that is not a TTY option: WIN holds iff the option has a window value; BUF implies a buffer value; a buffer value without BUF implies WIN |
| Validator.Validate | src/nvim/api/options.c:26-103 | when accepted, the index is in the table; Win goes with a window target and Buf with a buffer target; a filetype request is Global with no scope |
| Validator.BadScopeFailsFirst | src/nvim/api/options.c:31-41 | any scope word other than "local" or "global" fails with the scope error, whatever else the request holds |
| Validator.ScopeKeywordParsed | src/nvim/api/options.c:31-36 | "local" gives OPT_LOCAL and "global" gives OPT_GLOBAL |
| Validator.TargetOutputs | src/nvim/api/options.c:43-64 | no handle gives Global and no target; `win` gives Win and the found window; `buf` gives OPT_LOCAL, Buf and the found buffer |
| Validator.InvalidHandlePrecedes | src/nvim/api/options.c:49-80 | a handle that does not resolve fails with the lookup error, before any exclusivity check; an unknown buffer beside a valid window gives the buffer lookup error, not "cannot use both 'buf' and 'win'" |
| Validator.ExclusivityOrder | src/nvim/api/options.c:66-80 | with valid handles: filetype with buf, scope or win fails first; then scope with buf; then buf with win; each has its own message |
| Validator.AcceptedIff | src/nvim/api/options.c:31-80 | with an empty error slot, the result is OK iff the scope word is valid, the handles resolve and no exclusivity rule is broken |
| Validator.OptionErrorsStillOk | src/nvim/api/options.c:82-101 | OK is still returned: 0 attributes records "Unknown option"; a target the option lacks records "cannot be passed"; otherwise the error slot is left as it was |
| Validator.UnknownNameReported | src/nvim/api/options.c:82-86 | a name not in the table gives kOptInvalid and "Unknown option 'name'" |
| Validator.GlobalOnlyTargetRejected | src/nvim/api/options.c:87-97 | `win` or `buf` on a global-only option records "'win'/'buf' cannot be passed for global option 'name'" |
| Validator.BufForWindowOptionRejected | src/nvim/api/options.c:87-97 | `buf` on a window-local option with no global value records "'buf' cannot be passed for window-local option 'name'" |
| Context.NoSwitchCases | src/nvim/api/options.c:335-367 | no switch and no state change for Global, or when the target is already the current window or buffer |
| Context.BufferSwitchSucceeds | src/nvim/api/options.c:356-364 | a switch to another buffer always happens, makes it current and records the context to return to |
| Context.FailedSwitchError | src/nvim/api/options.c:344-351 | after a failed window switch the slot always holds an error; with no try_end error, an error already there is kept |
| Context.FailedWindowSwitchRollsBack | src/nvim/api/options.c:344-352 | a failed window switch reports false and leaves the window, buffer, buffer list and store as they were; the slot holds the try_end error, else the error already there, else "Problem while switching windows" |
| Context.RestoreUndoesSwitch | src/nvim/api/options.c:374-386 | restoring after a switch that happened brings back the previous window and buffer; the store, error slot, buffer list and next buffer handle are unchanged |
| Context.SwitchErrorOnlyOnWindowFailure | src/nvim/api/options.c:332-370 | the switch changes the error slot only on a failed window switch |
| Context.StrictReadsScopedSlot | src/nvim/api/options.c:466-490 | Nil with no change when the option has no value at that scope; otherwise the global slot for Global and the target's local slot for Buf or Win; Nil and an error after a failed window switch |
| Context.AccessorsRestoreWhenNoPriorError | src/nvim/api/options.c:503-556 | with an empty error slot on entry, the get and set accessors end on the window and buffer they started on |
| Context.SetterErrorStillRestores | src/nvim/api/options.c:548-555 | a setter error becomes an exception error; the context is still restored and nothing is stored |
| Context.PriorErrorSkipsRestore | src/nvim/api/options.c:511-546 | with an error already recorded, both accessors return right after the switch; the buffer switch is not undone and nothing is read or stored |
| Context.PriorErrorSkipsWindowRestore | src/nvim/api/options.c:511-546 | with an error already recorded, a successful window switch is not undone and nothing is read or stored; a failed one is rolled back and keeps that error when try_end records none |
| Context.SetForThenGetFor | src/nvim/api/options.c:503-556 | a successful set on a target and scope is read back by a get on the same target and scope |
| Requests.GetValueOrError | src/nvim/api/options.c:153-202 | a get returns either a non-Nil value with the error slot empty, or Nil with an error recorded |
| Requests.HiddenOptionNeverReturned | src/nvim/api/options.c:190-196 | a hidden option yields Nil and an error |
| Requests.GetRejectsNilRead | src/nvim/api/options.c:190-201 | a Nil read with no earlier error ends in the "option" validation error; the result is the empty object and nothing else changes |
| Requests.GetWithoutFiletypeRestores | src/nvim/api/options.c:162-192 | without a filetype, every get path leaves the current window, buffer and buffer list as they were |
| Requests.GetWithFiletypeCleansUp | src/nvim/api/options.c:169-188 | on a clean filetype get, the value comes from the dummy buffer; afterwards the context is restored, the buffer is wiped with its values, and it is not the current buffer |
| Requests.GetWithFiletypeAllocFailRestores | src/nvim/api/options.c:113-171 | when the dummy buffer cannot be allocated, the get returns Nil with "Could not create internal buffer", and the window, buffer, buffer list and store are as they were |
| Requests.GetWithFiletypeLeaksOnOptionError | src/nvim/api/options.c:169-172 | when validation recorded an option error, the result is empty and the dummy buffer stays current and allocated, with the autocommands' values; the slot holds the option error, or the autocommands' error if they left one |
| Requests.GetWithFiletypeLeaksOnAutocmdError | src/nvim/api/options.c:122-130 | when the FileType autocommands leave an error, the result is empty, that error is in the slot, and the dummy buffer stays current and allocated |
| Requests.FiletypeGetTwice | src/nvim/api/options.c:106-188 | two clean filetype gets in a row, each starting with an empty error slot, leave no buffer behind and return the same value, Nil included |
| Requests.SetOnWindowKeepsGlobal | src/nvim/api/options.c:236-241 | `win` without `scope` on an option with GLOBAL forces local scope; the global value never changes |
| Requests.SetRestoresWithoutOptionError | src/nvim/api/options.c:218-257 | a set with no option error recorded by validation ends on the window and buffer it started on |
| Requests.SetLeaksBufferOnOptionError | src/nvim/api/options.c:226-256 | a set on another buffer for which validation recorded an option error leaves that buffer current and stores nothing |
| Requests.SetOnWindowOptionErrorSkipsRestore | src/nvim/api/options.c:218-257 | `win` on another window for an option without WIN records "cannot be passed" and still goes on; a successful switch leaves that window current, a failed one (no try_end error) rolls back and keeps the validation error; nothing is stored |
| Requests.SetThenGet | src/nvim/api/options.c:153-257 | with a clean validation, no setter error and a window switch that can happen, a get with the same options returns the value set, including a `win` set forced to local scope and read back unscoped |
| Requests.SetThenGetOnBuffer | src/nvim/api/options.c:153-257 | for a buffer-local option, a set with `buf` and then a get with the same `buf` returns the value set |
| Requests.InfoTargetChoice | src/nvim/api/options.c:318-319 | the reported buffer is the `buf` target or else the current buffer; the reported window is the `win` target or else the current window |
| Editor.Editor.ValidateOptionValueArgs | src/nvim/api/options.c:26-103 | the step-by-step validator agrees with `Validator.Validate`: its OK/FAIL result, its outputs and its error slot |
| Editor.Editor.SwitchOptionContext | src/nvim/api/options.c:332-370 | the new window, buffer and error slot, and the returned flag and saved record, are those of `Context.Switch` |
| Editor.Editor.RestoreOptionContext | src/nvim/api/options.c:374-386 | the new window and buffer are those of `Context.Restore` |
| Editor.Editor.GetOptionValueStrict | src/nvim/api/options.c:466-490 | the result and new state are those of `Context.GetStrict` |
| Editor.Editor.GetOptionValueFor | src/nvim/api/options.c:503-523 | the result and new state are those of `Context.GetFor` |
| Editor.Editor.SetOptionValueFor | src/nvim/api/options.c:534-556 | the new state is that of `Context.SetFor` |
| Editor.Editor.DoFtBuf | src/nvim/api/options.c:106-133 | either no buffer; or the "Could not create internal buffer" error; or a fresh buffer, made current, with the autocommands' values and error |
| Editor.Editor.NvimGetOptionValue | src/nvim/api/options.c:153-202 | the result and new state are those of `Requests.GetOptionValue` |
| Editor.Editor.NvimSetOptionValue | src/nvim/api/options.c:218-257 | the new state is that of `Requests.SetOptionValue` |
| Editor.Editor.NvimGetOptionInfo2 | src/nvim/api/options.c:306-322 | the new error slot and the chosen scope, buffer and window are those of `Requests.GetOptionInfoTarget` |

## Left out

- Option registry internals. `find_option` is modelled as a search by full name only; short names are not modelled. The table rows are read-only inputs.
- Option storage internals: `get_varp_scope`, `optval_from_varp`, `get_option_value` and `set_option_value` from `nvim/option.c`. Storage is a map from cells (global, per-buffer, per-window) to values. The value-type checks of the setter and its TTY side effects are not modelled. The setter either stores the value or returns an error message chosen by the oracle. A TTY option whose value is stored and whose later step fails is not distinguished.
- ReadSlot: a slot with no stored value reads Nil. Neovim's storage always holds a value for a visible option, so reading a buffer-local option with `buf` before any value is stored, or a global-local option with `scope = "local"` and no local value, gives the "option" error here; this is the Nil read that the check at options.c:194 guards against. A read of an invalid or hidden option also gives Nil, as the comment on `get_option_value_strict` describes. The typed value that `optval_from_varp` builds for an option with no variable is not modelled. No request reaches such a read, because the validator records "Unknown option" first.
- `is_option_hidden` is taken to mean `var == NULL`, as in the comments of `get_option_attrs` and `option_has_scope`. Its body is not part of this model.
- `do_ft_buf` internals. The option writes inside `TRY_WRAP` (`bufhidden`, `buftype`, `swapfile`, `modeline`) and the filetype assignment are not modelled. The FileType autocommands are modelled only by the buffer-local values they leave and the error they may record.
- `aucmd_prepbuf` borrows the autocommand window when the buffer is shown in no window, which is always the case for the fresh dummy buffer of `do_ft_buf`. The model keeps the current window unchanged on a buffer switch, and restores both window and buffer on `aucmd_restbuf`. So where the dummy buffer is left current (the leak lemmas), the model keeps the caller's window current, while Neovim leaves the autocommand window current.
- Window and tab page switching internals (`switch_win_noblock`, `win_find_tabpage`, `restore_win_noblock`). A window switch succeeds or fails by oracle. A failed switch is rolled back in one step. On a successful switch the current buffer becomes the window's buffer.
- `find_window_by_handle` and `find_buffer_by_handle` are a membership test. Handle 0 meaning "current" is not modelled. Their error texts, and those of the VALIDATE_EXP and VALIDATE_S helpers, are symbolic messages. The "got" type name of the value-type error (`api_typename`) is dropped.
- `object_as_optval` and `optval_as_object` are modelled as an optional value in and a value out. Nil stands for the empty object.
- `nvim_get_all_options_info` and the dictionary that `get_vimoption` builds. `nvim_get_option_info2` is modelled up to the scope, buffer and window it passes on.
- `WITH_SCRIPT_CONTEXT` and `channel_id` bookkeeping, and memory management (`xstrdup`, `optval_free`).
- Numeric values of OptReqScope, SOPT_*, PV_* and OPT_*. They are symbolic. The test `*req_scope & kOptReqBuf` is read as "the request is Buf". The unreachable default cases disappear in closed datatypes.

=== FILE: capability.dfy ===
/**
 * The capability calculus: which scopes an option can be asked for (get_option_attrs)
 * and at which scopes it actually has a value (option_has_scope).
 */
module Capability {
  import opened OptionTypes

  /** The SOPT_GLOBAL, SOPT_WIN and SOPT_BUF attribute bits; all clear means 0. */
  datatype Attrs = Attrs(global: bool, win: bool, buf: bool) {
    predicate IsZero() {
      !global && !win && !buf
    }
  }

  const NoAttrs := Attrs(false, false, false)

  /** The attribute set get_option_attrs computes, as a value. */
  function AttrsOf(reg: Registry, idx: OptIndex): (a: Attrs)
    requires InTable(reg, idx)
    ensures a.IsZero() <==>
      (idx.Invalid? || IsHidden(reg, idx)
       || (!reg[idx.i].indir.IsNone() && !reg[idx.i].indir.both && !reg[idx.i].indir.win && !reg[idx.i].indir.buf))
    ensures !(a.win && a.buf)
  {
    if idx.Invalid? || IsHidden(reg, idx) then NoAttrs
    else
      var ind := reg[idx.i].indir;
      Attrs(ind.IsNone() || ind.both, ind.win, !ind.win && ind.buf)
  }

  /**
   * get_option_attrs: 0 for kOptInvalid or a hidden option; otherwise GLOBAL when `indir`
   * is PV_NONE or has PV_BOTH, WIN when it has PV_WIN, and BUF when it has PV_BUF but not PV_WIN.
   */
  method GetOptionAttrs(reg: Registry, idx: OptIndex) returns (attrs: Attrs)
    requires InTable(reg, idx)
    ensures idx.Invalid? || IsHidden(reg, idx) ==> attrs == NoAttrs
    ensures idx.At? && !IsHidden(reg, idx) ==>
      && (attrs.global <==> reg[idx.i].indir.IsNone() || reg[idx.i].indir.both)
      && (attrs.win <==> reg[idx.i].indir.win)
      && (attrs.buf <==> reg[idx.i].indir.buf && !reg[idx.i].indir.win)
    ensures attrs == AttrsOf(reg, idx)
  {
    if idx.Invalid? {
      return NoAttrs;
    }
    var opt := reg[idx.i];
    if opt.variable == NoVar {
      return NoAttrs;
    }
    attrs := NoAttrs;
    if opt.indir.IsNone() || opt.indir.both {
      attrs := attrs.(global := true);
    }
    if opt.indir.win {
      attrs := attrs.(win := true);
    } else if opt.indir.buf {
      attrs := attrs.(buf := true);
    }
  }

  /**
   * option_has_scope: whether the option has a value at the requested scope. Invalid and
   * hidden options have none; a TTY option has only a global value; otherwise the global
   * value exists unless `var` is VAR_WIN, and the buffer or window value exists when
   * `indir` has PV_BUF or PV_WIN.
   */
  function OptionHasScope(reg: Registry, idx: OptIndex, req: ReqScope): (r: bool)
    requires InTable(reg, idx)
    ensures r ==> idx.At? && !IsHidden(reg, idx)
    ensures idx.At? && reg[idx.i].tty ==> (r <==> req == ReqGlobal && !IsHidden(reg, idx))
  {
    if idx.Invalid? then false
    else
      var opt := reg[idx.i];
      if opt.variable == NoVar then false
      else if opt.tty then req == ReqGlobal
      else
        match req
        case ReqGlobal => opt.variable != VarWin
        case ReqBuf => opt.indir.buf
        case ReqWin => opt.indir.win
  }

  /**
   * For a visible option that is not a TTY option, the WIN attribute and a window value
   * coincide, a BUF attribute implies a buffer value, and a buffer value without the BUF
   * attribute only happens when PV_WIN is also set.
   */
  lemma AttrsAgreeWithScope(reg: Registry, idx: OptIndex)
    requires InTable(reg, idx) && idx.At? && !IsHidden(reg, idx) && !reg[idx.i].tty
    ensures AttrsOf(reg, idx).win <==> OptionHasScope(reg, idx, ReqWin)
    ensures AttrsOf(reg, idx).buf ==> OptionHasScope(reg, idx, ReqBuf)
    ensures OptionHasScope(reg, idx, ReqBuf) && !AttrsOf(reg, idx).buf ==> AttrsOf(reg, idx).win
  {
  }
}

=== FILE: context.dfy ===
/**
 * The context switcher (switch_option_context / restore_option_context) and the three
 * accessors that wrap a read or a write in it, as functions over the editor state.
 * The error slot is part of the state and is threaded through every step.
 */
module Context {
  import opened OptionTypes
  import opened Capability

  /** What does not change during a request: the option table, the windows and the buffer each shows. */
  datatype World = World(reg: Registry, windows: set<int>, winBuf: map<int, int>)

  /** The process-wide state a request reads and changes. */
  datatype State = State(curwin: int, curbuf: int, buffers: set<int>, nextBuf: int, store: Store, err: Error)

  /**
   * Results of collaborators outside the model: whether switch_win_noblock succeeds, the
   * error try_end reports after a failed switch, whether buflist_new can allocate the dummy
   * buffer, the buffer-local values the FileType autocommands set on it (by option index)
   * and the error they leave, and the error message the option setter returns.
   */
  datatype Oracle = Oracle(winSwitchOk: bool, tryEndErr: Option<string>, bufAllocOk: bool,
                           ftLocals: map<nat, OptVal>, ftErr: Option<string>, setErr: Option<string>)

  /** The saved-context record (switchwin_T or aco_save_T): the window and buffer to go back to. */
  datatype Saved = Saved(win: int, buf: int)

  datatype Switched = Switched(st: State, switched: bool, saved: Saved)

  const SwitchWindowMsg := Text("Problem while switching windows")

  /** Whether a request kind and a target handle fit together as the callers pass them. */
  predicate TargetFits(req: ReqScope, from: Target) {
    (req == ReqWin ==> from.Win?) && (req == ReqBuf ==> from.Buf?)
  }

  /** The buffer a window shows; curbuf follows curwin on a window switch. */
  function BufferOf(w: World, win: int, otherwise: int): int {
    if win in w.winBuf then w.winBuf[win] else otherwise
  }

  /** switch_option_context */
  function Switch(w: World, s: State, req: ReqScope, from: Target, o: Oracle): Switched
    requires TargetFits(req, from)
  {
    var saved := Saved(s.curwin, s.curbuf);
    match req
    case ReqGlobal => Switched(s, false, saved)
    case ReqWin =>
      if from.win == s.curwin then Switched(s, false, saved)
      else if o.winSwitchOk then
        Switched(s.(curwin := from.win, curbuf := BufferOf(w, from.win, s.curbuf)), true, saved)
      else
        // switch_win_noblock failed: restore_win_noblock puts curwin and curbuf back, and
        // try_end reports whether the slot now holds an error (its own, or one already there)
        Switched(s.(err := FailedSwitchError(s.err, o)), false, saved)
    case ReqBuf =>
      if from.buf == s.curbuf then Switched(s, false, saved)
      else Switched(s.(curbuf := from.buf), true, saved)
  }

  /**
   * The error slot after a failed window switch: the error try_end records if it records
   * one, else the error already in the slot, else "Problem while switching windows".
   */
  function FailedSwitchError(err: Error, o: Oracle): (e: Error)
    ensures e.IsSet()
    ensures o.tryEndErr.None? && err.IsSet() ==> e == err
  {
    if o.tryEndErr.Some? then Err(Exception, Text(o.tryEndErr.value))
    else if err.IsSet() then err
    else Err(Exception, SwitchWindowMsg)
  }

  /** restore_option_context */
  function Restore(s: State, req: ReqScope, saved: Saved): State {
    match req
    case ReqGlobal => s
    case ReqWin => s.(curwin := saved.win, curbuf := saved.buf)
    case ReqBuf => s.(curwin := saved.win, curbuf := saved.buf)
  }

  /** Restore only when the switch reported that it switched. */
  function RestoreIf(s: State, req: ReqScope, sw: Switched): State {
    if sw.switched then Restore(s, req, sw.saved) else s
  }

  /** get_option_value_strict */
  function GetStrict(w: World, s: State, idx: OptIndex, req: ReqScope, from: Target, o: Oracle): (State, OptVal)
    requires InTable(w.reg, idx) && TargetFits(req, from)
  {
    if idx.Invalid? || !OptionHasScope(w.reg, idx, req) then (s, Nil)
    else
      var sw := Switch(w, s, req, from, o);
      if sw.st.err.IsSet() then (sw.st, Nil)
      else
        var v := ReadSlot(w.reg, sw.st.store, idx, req != ReqGlobal, sw.st.curbuf, sw.st.curwin);
        (RestoreIf(sw.st, req, sw), v)
  }

  /** get_option_value_for */
  function GetFor(w: World, s: State, idx: OptIndex, scope: Scope, req: ReqScope, from: Target, o: Oracle): (State, OptVal)
    requires InTable(w.reg, idx) && TargetFits(req, from)
  {
    var sw := Switch(w, s, req, from, o);
    if sw.st.err.IsSet() then (sw.st, Nil)
    else
      var v := ReadValue(w.reg, sw.st.store, idx, scope, sw.st.curbuf, sw.st.curwin);
      (RestoreIf(sw.st, req, sw), v)
  }

  /**
   * The option setter (set_option_value_handle_tty): an error message leaves the store
   * alone and becomes an exception error; otherwise the value is stored.
   */
  function ApplySet(w: World, s: State, idx: OptIndex, value: OptVal, scope: Scope, o: Oracle): State
    requires InTable(w.reg, idx)
  {
    if o.setErr.Some? then s.(err := Err(Exception, Text(o.setErr.value)))
    else s.(store := WriteValue(w.reg, s.store, idx, value, scope, s.curbuf, s.curwin))
  }

  /** set_option_value_for */
  function SetFor(w: World, s: State, idx: OptIndex, value: OptVal, scope: Scope, req: ReqScope, from: Target, o: Oracle): State
    requires InTable(w.reg, idx) && TargetFits(req, from)
  {
    var sw := Switch(w, s, req, from, o);
    if sw.st.err.IsSet() then sw.st
    else RestoreIf(ApplySet(w, sw.st, idx, value, scope, o), req, sw)
  }

  /** The current window and buffer, the part of the state a switch touches. */
  function Here(s: State): (int, int) {
    (s.curwin, s.curbuf)
  }

  // ---------------------------------------------------------------------------------
  // Properties of the switcher

  /** No switch for a Global request or for a target that is already current. */
  lemma NoSwitchCases(w: World, s: State, req: ReqScope, from: Target, o: Oracle)
    requires TargetFits(req, from)
    requires req == ReqGlobal || (req == ReqWin && from.win == s.curwin) || (req == ReqBuf && from.buf == s.curbuf)
    ensures !Switch(w, s, req, from, o).switched && Switch(w, s, req, from, o).st == s
  {
  }

  /** A buffer switch to another buffer always succeeds and makes it current, changing nothing else. */
  lemma BufferSwitchSucceeds(w: World, s: State, b: int, o: Oracle)
    requires b != s.curbuf
    ensures var sw := Switch(w, s, ReqBuf, Buf(b), o);
      sw.switched && sw.st == s.(curbuf := b) && sw.saved == Saved(s.curwin, s.curbuf)
  {
  }

  /**
   * A failed window switch reports false with curwin and curbuf as they were, and leaves an
   * error in the slot: the try_end error if there is one; otherwise an error already in the
   * slot is kept, and only an empty slot gets "Problem while switching windows".
   */
  lemma FailedWindowSwitchRollsBack(w: World, s: State, win: int, o: Oracle)
    requires win != s.curwin && !o.winSwitchOk
    ensures var sw := Switch(w, s, ReqWin, Win(win), o);
      && !sw.switched
      && Here(sw.st) == Here(s) && sw.st.store == s.store && sw.st.buffers == s.buffers
      && sw.st.nextBuf == s.nextBuf
      && (o.tryEndErr.Some? ==> sw.st.err == Err(Exception, Text(o.tryEndErr.value)))
      && (o.tryEndErr.None? && s.err.IsSet() ==> sw.st.err == s.err)
      && (o.tryEndErr.None? && !s.err.IsSet() ==> sw.st.err == Err(Exception, SwitchWindowMsg))
  {
  }

  /** Restoring after a switch that happened brings back the window and buffer that were current. */
  lemma RestoreUndoesSwitch(w: World, s: State, req: ReqScope, from: Target, o: Oracle, t: State)
    requires TargetFits(req, from)
    requires Switch(w, s, req, from, o).switched
    ensures Here(Restore(t, req, Switch(w, s, req, from, o).saved)) == Here(s)
    ensures Restore(t, req, Switch(w, s, req, from, o).saved).store == t.store
    ensures Restore(t, req, Switch(w, s, req, from, o).saved).err == t.err
    ensures Restore(t, req, Switch(w, s, req, from, o).saved).buffers == t.buffers
    ensures Restore(t, req, Switch(w, s, req, from, o).saved).nextBuf == t.nextBuf
  {
  }

  /** A switch leaves the error slot alone except on the failed window switch. */
  lemma SwitchErrorOnlyOnWindowFailure(w: World, s: State, req: ReqScope, from: Target, o: Oracle)
    requires TargetFits(req, from)
    ensures var sw := Switch(w, s, req, from, o);
      sw.st.err != s.err ==> req == ReqWin && from.win != s.curwin && !o.winSwitchOk
  {
  }

  // ---------------------------------------------------------------------------------
  // Properties of the accessors

  /**
   * get_option_value_strict returns Nil with nothing changed when the option has no value
   * at the requested scope; otherwise, unless the switch leaves an error, it returns the
   * global slot for Global and the target's local slot for Win or Buf.
   */
  lemma StrictReadsScopedSlot(w: World, s: State, idx: OptIndex, req: ReqScope, from: Target, o: Oracle)
    requires InTable(w.reg, idx) && TargetFits(req, from) && !s.err.IsSet()
    ensures var (s', v) := GetStrict(w, s, idx, req, from, o);
      && (!OptionHasScope(w.reg, idx, req) ==> s' == s && v == Nil)
      && (OptionHasScope(w.reg, idx, req) && req == ReqGlobal ==> s' == s && v == Lookup(s.store, GlobalCell(idx.i)))
      && (OptionHasScope(w.reg, idx, req) && req == ReqBuf ==>
            s' == s && v == Lookup(s.store, LocalCell(w.reg, idx.i, from.buf, s.curwin)))
      && (OptionHasScope(w.reg, idx, req) && req == ReqWin && (from.win == s.curwin || o.winSwitchOk) ==>
            s' == s && v == Lookup(s.store, LocalCell(w.reg, idx.i, BufferOf(w, from.win, s.curbuf), from.win)))
      && (OptionHasScope(w.reg, idx, req) && req == ReqWin && from.win != s.curwin && !o.winSwitchOk ==>
            Here(s') == Here(s) && s'.err.IsSet() && v == Nil)
  {
  }

  /**
   * With an empty error slot on entry, get_option_value_for and set_option_value_for end
   * with the same current window and buffer they started with, whether the switch
   * succeeded, failed, or the setter reported an error.
   */
  lemma AccessorsRestoreWhenNoPriorError(w: World, s: State, idx: OptIndex, value: OptVal, scope: Scope,
                                         req: ReqScope, from: Target, o: Oracle)
    requires InTable(w.reg, idx) && TargetFits(req, from) && !s.err.IsSet()
    ensures Here(GetFor(w, s, idx, scope, req, from, o).0) == Here(s)
    ensures Here(SetFor(w, s, idx, value, scope, req, from, o)) == Here(s)
  {
  }

  /**
   * The setter's error message becomes an exception error and the context is still
   * restored; the store is left as it was.
   */
  lemma SetterErrorStillRestores(w: World, s: State, idx: OptIndex, value: OptVal, scope: Scope,
                                 req: ReqScope, from: Target, o: Oracle)
    requires InTable(w.reg, idx) && TargetFits(req, from) && !s.err.IsSet()
    requires o.setErr.Some? && (req != ReqWin || from.win == s.curwin || o.winSwitchOk)
    ensures var s' := SetFor(w, s, idx, value, scope, req, from, o);
      Here(s') == Here(s) && s'.store == s.store && s'.err == Err(Exception, Text(o.setErr.value))
  {
  }

  /**
   * An error already in the slot makes get_option_value_for and set_option_value_for return
   * straight after the switch: a buffer switch that happened is not undone, and nothing is
   * read or stored.
   */
  lemma PriorErrorSkipsRestore(w: World, s: State, idx: OptIndex, value: OptVal, scope: Scope, b: int, o: Oracle)
    requires InTable(w.reg, idx) && s.err.IsSet() && b != s.curbuf
    ensures GetFor(w, s, idx, scope, ReqBuf, Buf(b), o) == (s.(curbuf := b), Nil)
    ensures SetFor(w, s, idx, value, scope, ReqBuf, Buf(b), o) == s.(curbuf := b)
  {
  }

  /**
   * The same for a window target: a window switch that succeeded is not undone, so the
   * target window and its buffer stay current; a failed one is rolled back and keeps the
   * error already recorded unless try_end records its own. Nothing is read or stored.
   */
  lemma PriorErrorSkipsWindowRestore(w: World, s: State, idx: OptIndex, value: OptVal, scope: Scope, win: int, o: Oracle)
    requires InTable(w.reg, idx) && s.err.IsSet() && win != s.curwin
    ensures o.winSwitchOk ==>
      var moved := s.(curwin := win, curbuf := BufferOf(w, win, s.curbuf));
      && GetFor(w, s, idx, scope, ReqWin, Win(win), o) == (moved, Nil)
      && SetFor(w, s, idx, value, scope, ReqWin, Win(win), o) == moved
    ensures !o.winSwitchOk && o.tryEndErr.None? ==>
      && GetFor(w, s, idx, scope, ReqWin, Win(win), o) == (s, Nil)
      && SetFor(w, s, idx, value, scope, ReqWin, Win(win), o) == s
  {
  }

  /** A successful write through set_option_value_for is read back by get_option_value_for on the same target and scope. */
  lemma SetForThenGetFor(w: World, s: State, idx: OptIndex, value: OptVal, scope: Scope,
                         req: ReqScope, from: Target, o: Oracle)
    requires InTable(w.reg, idx) && idx.At? && !IsHidden(w.reg, idx) && TargetFits(req, from)
    requires !s.err.IsSet() && o.setErr.None? && (req != ReqWin || from.win == s.curwin || o.winSwitchOk)
    ensures GetFor(w, SetFor(w, s, idx, value, scope, req, from, o), idx, scope, req, from, o).1 == value
  {
    var sw := Switch(w, s, req, from, o);
    ReadAfterWrite(w.reg, sw.st.store, idx, value, scope, sw.st.curbuf, sw.st.curwin);
  }
}

=== FILE: editor.dfy ===
/**
 * The option-request layer as the source runs it: step by step over the editor's current
 * window, current buffer, buffer list, option storage and error slot. Every method is
 * proved to agree with the function that specifies it in Validator, Context or Requests,
 * where the properties of the layer are proved.
 */
module Editor {
  import opened OptionTypes
  import opened Capability
  import opened Validator
  import opened Context
  import opened Requests

  class Editor {
    const reg: Registry
    const windows: set<int>
    const winBuf: map<int, int>

    var buffers: set<int>
    var nextBuf: int
    var curwin: int
    var curbuf: int
    var store: Store
    var err: Error

    /** The part of the editor a request does not change. */
    function Env(): World {
      World(reg, windows, winBuf)
    }

    /** The part of the editor a request reads and changes. */
    function View(): State
      reads this
    {
      State(curwin, curbuf, buffers, nextBuf, store, err)
    }

    constructor (reg: Registry, windows: set<int>, winBuf: map<int, int>, buffers: set<int>,
                 nextBuf: int, curwin: int, curbuf: int, store: Store)
      ensures Env() == World(reg, windows, winBuf)
      ensures View() == State(curwin, curbuf, buffers, nextBuf, store, NoError)
    {
      this.reg, this.windows, this.winBuf := reg, windows, winBuf;
      this.buffers, this.nextBuf := buffers, nextBuf;
      this.curwin, this.curbuf := curwin, curbuf;
      this.store, this.err := store, NoError;
    }

    /** find_window_by_handle: the window, or NULL with "invalid window" recorded. */
    method FindWindowByHandle(h: int) returns (t: Target)
      modifies this`err
      ensures h in windows ==> t == Win(h) && err == old(err)
      ensures h !in windows ==> t == NoTarget && err == BadWindow(h)
    {
      if h in windows {
        return Win(h);
      }
      err := BadWindow(h);
      return NoTarget;
    }

    /** find_buffer_by_handle: the buffer, or NULL with "invalid buffer" recorded. */
    method FindBufferByHandle(h: int) returns (t: Target)
      modifies this`err
      ensures h in buffers ==> t == Buf(h) && err == old(err)
      ensures h !in buffers ==> t == NoTarget && err == BadBuffer(h)
    {
      if h in buffers {
        return Buf(h);
      }
      err := BadBuffer(h);
      return NoTarget;
    }

    /** validate_option_value_args */
    method ValidateOptionValueArgs(opts: Opts, name: string, wantFiletype: bool)
      returns (ok: bool, optIdx: OptIndex, scope: Scope, req: ReqScope, from: Target, filetype: Option<string>)
      modifies this`err
      ensures var v := Validate(reg, windows, buffers, opts, name, wantFiletype, old(err));
        && ok == v.Accepted?
        && err == v.err
        && (ok ==> optIdx == v.optIdx && scope == v.scope && req == v.req && from == v.from && filetype == v.filetype)
    {
      ok, optIdx, scope, req, from, filetype := false, Invalid, Unset, ReqGlobal, NoTarget, None;
      if opts.scope.Some? {
        if opts.scope.value == "local" {
          scope := Local;
        } else if opts.scope.value == "global" {
          scope := Global;
        } else {
          err := Err(Validation, InvalidScopeMsg);
          return;
        }
      }

      req := ReqGlobal;

      if wantFiletype && opts.filetype.Some? {
        filetype := opts.filetype;
      }

      if opts.win.Some? {
        req := ReqWin;
        from := FindWindowByHandle(opts.win.value);
        if err.IsSet() {
          return;
        }
      }

      if opts.buf.Some? {
        scope := Local;
        req := ReqBuf;
        from := FindBufferByHandle(opts.buf.value);
        if err.IsSet() {
          return;
        }
      }

      if opts.filetype.Some? && (opts.buf.Some? || opts.scope.Some? || opts.win.Some?) {
        err := Err(Validation, FiletypeExclusiveMsg);
        return;
      }
      if opts.scope.Some? && opts.buf.Some? {
        err := Err(Validation, ScopeAndBufMsg);
        return;
      }
      if opts.win.Some? && opts.buf.Some? {
        err := Err(Validation, BufAndWinMsg);
        return;
      }

      optIdx := FindOption(reg, name);
      var flags := GetOptionAttrs(reg, optIdx);
      if flags.IsZero() {
        // hidden or unknown option
        err := Err(Validation, UnknownOptionMsg(name));
      } else if req == ReqBuf || req == ReqWin {
        // the option must support the requested target
        var supported := if req == ReqBuf then flags.buf else flags.win;
        if !supported {
          err := Err(Validation, CannotPassMsg(req, flags, name));
        }
      }
      ok := true;
    }

    /** switch_option_context */
    method SwitchOptionContext(req: ReqScope, from: Target, o: Oracle) returns (switched: bool, saved: Saved)
      requires TargetFits(req, from)
      modifies this`curwin, this`curbuf, this`err
      ensures var sw := Switch(Env(), old(View()), req, from, o);
        View() == sw.st && switched == sw.switched && saved == sw.saved
    {
      saved := Saved(curwin, curbuf);
      match req
      case ReqWin =>
        if from.win == curwin {
          return false, saved;
        }
        if o.winSwitchOk {
          curwin := from.win;
          curbuf := BufferOf(Env(), from.win, curbuf);
          return true, saved;
        }
        // switch_win_noblock failed: restore_win_noblock
        curwin, curbuf := saved.win, saved.buf;
        // try_end: its own error, or true when the slot already holds one
        if o.tryEndErr.Some? {
          err := Err(Exception, Text(o.tryEndErr.value));
          return false, saved;
        }
        if err.IsSet() {
          return false, saved;
        }
        err := Err(Exception, SwitchWindowMsg);
        return false, saved;
      case ReqBuf =>
        if from.buf == curbuf {
          return false, saved;
        }
        // aucmd_prepbuf
        curbuf := from.buf;
        return true, saved;
      case ReqGlobal =>
        return false, saved;
    }

    /** restore_option_context */
    method RestoreOptionContext(req: ReqScope, saved: Saved)
      modifies this`curwin, this`curbuf
      ensures View() == Restore(old(View()), req, saved)
    {
      match req
      case ReqWin =>
        curwin, curbuf := saved.win, saved.buf;
      case ReqBuf =>
        curwin, curbuf := saved.win, saved.buf;
      case ReqGlobal =>
    }

    /** get_option_value_strict */
    method GetOptionValueStrict(optIdx: OptIndex, req: ReqScope, from: Target, o: Oracle) returns (v: OptVal)
      requires InTable(reg, optIdx) && TargetFits(req, from)
      modifies this`curwin, this`curbuf, this`err
      ensures (View(), v) == GetStrict(Env(), old(View()), optIdx, req, from, o)
    {
      if optIdx.Invalid? || !OptionHasScope(reg, optIdx, req) {
        return Nil;
      }
      var switched, saved := SwitchOptionContext(req, from, o);
      if err.IsSet() {
        return Nil;
      }
      v := ReadSlot(reg, store, optIdx, req != ReqGlobal, curbuf, curwin);
      if switched {
        RestoreOptionContext(req, saved);
      }
    }

    /** get_option_value_for */
    method GetOptionValueFor(optIdx: OptIndex, scope: Scope, req: ReqScope, from: Target, o: Oracle) returns (v: OptVal)
      requires InTable(reg, optIdx) && TargetFits(req, from)
      modifies this`curwin, this`curbuf, this`err
      ensures (View(), v) == GetFor(Env(), old(View()), optIdx, scope, req, from, o)
    {
      var switched, saved := SwitchOptionContext(req, from, o);
      if err.IsSet() {
        return Nil;
      }
      v := ReadValue(reg, store, optIdx, scope, curbuf, curwin);
      if switched {
        RestoreOptionContext(req, saved);
      }
    }

    /** The option setter: stores the value, or returns the error message it produced instead. */
    method SetOptionValueHandleTty(optIdx: OptIndex, value: OptVal, scope: Scope, o: Oracle) returns (errmsg: Option<string>)
      requires InTable(reg, optIdx)
      modifies this`store
      ensures errmsg == o.setErr
      ensures store == if errmsg.Some? then old(store) else WriteValue(reg, old(store), optIdx, value, scope, curbuf, curwin)
    {
      errmsg := o.setErr;
      if errmsg.None? {
        store := WriteValue(reg, store, optIdx, value, scope, curbuf, curwin);
      }
    }

    /** set_option_value_for */
    method SetOptionValueFor(optIdx: OptIndex, value: OptVal, scope: Scope, req: ReqScope, from: Target, o: Oracle)
      requires InTable(reg, optIdx) && TargetFits(req, from)
      modifies this`curwin, this`curbuf, this`err, this`store
      ensures View() == SetFor(Env(), old(View()), optIdx, value, scope, req, from, o)
    {
      var switched, saved := SwitchOptionContext(req, from, o);
      if err.IsSet() {
        return;
      }
      var errmsg := SetOptionValueHandleTty(optIdx, value, scope, o);
      if errmsg.Some? {
        err := Err(Exception, Text(errmsg.value));
      }
      if switched {
        RestoreOptionContext(req, saved);
      }
    }

    /** do_ft_buf */
    method DoFtBuf(filetype: Option<string>, o: Oracle) returns (ftbuf: Option<int>, saved: Saved)
      modifies this`buffers, this`nextBuf, this`curbuf, this`store, this`err
      ensures FtProbe(View(), ftbuf, saved) == ProbeFiletype(old(View()), filetype, o)
    {
      saved := Saved(curwin, curbuf);
      if filetype.None? {
        return None, saved;
      }
      if !o.bufAllocOk {
        err := Err(Exception, AllocFailedMsg);
        return None, saved;
      }
      // buflist_new: an unlisted buffer with a fresh handle
      var b := nextBuf;
      buffers := buffers + {b};
      nextBuf := b + 1;
      // aucmd_prepbuf
      curbuf := b;
      // the FileType autocommands
      store := ProbeStore(store, b, o.ftLocals);
      if o.ftErr.Some? {
        err := Err(Exception, Text(o.ftErr.value));
      }
      return Some(b), saved;
    }

    /** nvim_get_option_value; Nil is the empty object returned on error. */
    method NvimGetOptionValue(name: string, opts: Opts, o: Oracle) returns (r: OptVal)
      modifies this
      ensures (View(), r) == GetOptionValue(Env(), old(View()), name, opts, o)
    {
      var ok, optIdx, scope, req, from, filetype := ValidateOptionValueArgs(opts, name, true);
      if !ok {
        return Nil;
      }

      var ftbuf, aco := DoFtBuf(filetype, o);
      if err.IsSet() {
        return Nil;
      }

      if ftbuf.Some? {
        from := Buf(ftbuf.value);
      }

      var value := GetOptionValueFor(optIdx, scope, req, from, o);
      var hidden := IsHidden(reg, optIdx);

      if ftbuf.Some? {
        // aucmd_restbuf, then wipe_buffer
        curwin, curbuf := aco.win, aco.buf;
        buffers := buffers - {ftbuf.value};
        store := WipeCells(store, ftbuf.value);
      }

      if err.IsSet() {
        return Nil;
      }
      if hidden || value == Nil {
        err := BadOption(name);
        return Nil;
      }
      return value;
    }

    /** nvim_set_option_value; `value` is None when the object does not convert to an option value. */
    method NvimSetOptionValue(name: string, value: Option<OptVal>, opts: Opts, o: Oracle)
      modifies this
      ensures View() == SetOptionValue(Env(), old(View()), name, value, opts, o)
    {
      var ok, optIdx, scope, req, to, _ := ValidateOptionValueArgs(opts, name, false);
      if !ok {
        return;
      }

      // a window target with no scope must not change an option's global value
      if req == ReqWin && scope == Unset {
        var flags := GetOptionAttrs(reg, optIdx);
        if flags.global {
          scope := Local;
        }
      }

      if value.None? {
        err := Err(Validation, BadValueTypeMsg);
        return;
      }

      SetOptionValueFor(optIdx, value.value, scope, req, to, o);
    }

    /** nvim_get_option_info2, up to the call that builds the dictionary. */
    method NvimGetOptionInfo2(name: string, opts: Opts) returns (t: InfoTarget)
      modifies this`err
      ensures (View(), t) == GetOptionInfoTarget(Env(), old(View()), name, opts)
    {
      var ok, optIdx, scope, req, from, _ := ValidateOptionValueArgs(opts, name, false);
      if !ok {
        return NoInfo;
      }
      var buf := if req == ReqBuf then from.buf else curbuf;
      var win := if req == ReqWin then from.win else curwin;
      return InfoFor(scope, buf, win);
    }
  }
}

=== FILE: option_types.dfy ===
/**
 * Values, registry entries and storage cells shared by the option-request layer.
 *
 * The option registry (the options[] table and find_option) and the option storage
 * (get_varp_scope, optval_from_varp, get_option_value, set_option_value) live in
 * nvim/option.c, which is not part of this model. They are represented here by a
 * read-only sequence of descriptors and by a map from storage cells to values.
 */
module OptionTypes {

  datatype Option<+T> = None | Some(value: T)

  /** The dynamically typed option value that crosses the API boundary. */
  datatype OptVal = Nil | Bool(b: bool) | Num(n: int) | Str(s: string)

  /** What an option's `var` pointer is: NULL (hidden option), VAR_WIN, or a real variable. */
  datatype Var = NoVar | VarWin | VarOwn

  /**
   * An option's `indir` field: a slot number combined with the PV_BOTH, PV_WIN and
   * PV_BUF flag bits. The numeric flag values are not modelled, only which are set.
   */
  datatype Indir = Indir(slot: nat, both: bool, win: bool, buf: bool) {
    /** `indir == PV_NONE`: no slot and no flag bit. */
    predicate IsNone() {
      slot == 0 && !both && !win && !buf
    }
  }

  /** One entry of the read-only option table. */
  datatype OptionDesc = OptionDesc(fullname: string, variable: Var, indir: Indir, tty: bool)

  type Registry = seq<OptionDesc>

  /** An option index; `Invalid` is kOptInvalid. */
  datatype OptIndex = Invalid | At(i: nat)

  /** Every index the registry hands out is either kOptInvalid or a row of the table. */
  predicate InTable(reg: Registry, idx: OptIndex) {
    idx.At? ==> idx.i < |reg|
  }

  /** A hidden option is a table row whose `var` is NULL. */
  predicate IsHidden(reg: Registry, idx: OptIndex)
    requires InTable(reg, idx)
  {
    idx.At? && reg[idx.i].variable == NoVar
  }

  /** OptReqScope: which kind of target a request names. */
  datatype ReqScope = ReqGlobal | ReqWin | ReqBuf

  /** The `scope` flags: 0 (neither), OPT_LOCAL or OPT_GLOBAL. */
  datatype Scope = Unset | Local | Global

  /** The `void *from` target handle: NULL, a window or a buffer. */
  datatype Target = NoTarget | Win(win: int) | Buf(buf: int)

  /** The optional keys of a `Dict(option)` request. */
  datatype Opts = Opts(scope: Option<string>, win: Option<int>, buf: Option<int>, filetype: Option<string>)

  datatype ErrorType = Validation | Exception

  /**
   * An error message. `Text` is a message whose exact text is fixed in the request layer;
   * the other constructors stand for messages formatted by helpers outside it
   * (VALIDATE_EXP, VALIDATE_S and the handle lookups).
   */
  datatype Message =
    | Text(s: string)
    | InvalidExpected(key: string, expected: string)
    | InvalidValue(key: string, value: string)
    | InvalidHandle(kind: string, handle: int)

  /** The `Error *err` slot. */
  datatype Error = NoError | Err(kind: ErrorType, msg: Message) {
    /** ERROR_SET(err) */
    predicate IsSet() {
      Err?
    }
  }

  /**
   * find_option by full name: the first table row with that name, or kOptInvalid.
   */
  function FindOption(reg: Registry, name: string): (idx: OptIndex)
    ensures InTable(reg, idx)
    ensures idx.At? ==> reg[idx.i].fullname == name
    ensures idx.At? ==> forall j :: 0 <= j < idx.i ==> reg[j].fullname != name
    ensures idx.Invalid? ==> forall j :: 0 <= j < |reg| ==> reg[j].fullname != name
  {
    FindFrom(reg, name, 0)
  }

  function FindFrom(reg: Registry, name: string, k: nat): (idx: OptIndex)
    requires k <= |reg|
    ensures InTable(reg, idx)
    ensures idx.At? ==> k <= idx.i && reg[idx.i].fullname == name
    ensures idx.At? ==> forall j :: k <= j < idx.i ==> reg[j].fullname != name
    ensures idx.Invalid? ==> forall j :: k <= j < |reg| ==> reg[j].fullname != name
    decreases |reg| - k
  {
    if k == |reg| then Invalid
    else if reg[k].fullname == name then At(k)
    else FindFrom(reg, name, k + 1)
  }

  /** A storage cell: the global value of an option, or its local value in one buffer or window. */
  datatype Cell = GlobalCell(opt: nat) | BufCell(buf: int, opt: nat) | WinCell(win: int, opt: nat)

  type Store = map<Cell, OptVal>

  function Lookup(store: Store, c: Cell): OptVal {
    if c in store then store[c] else Nil
  }

  /** The cell that holds option `i`'s local value for the current buffer and window. */
  function LocalCell(reg: Registry, i: nat, curbuf: int, curwin: int): Cell
    requires i < |reg|
  {
    if reg[i].indir.win then WinCell(curwin, i)
    else if reg[i].indir.buf then BufCell(curbuf, i)
    else GlobalCell(i)
  }

  /**
   * get_varp_scope followed by optval_from_varp: the value in the global slot or in the
   * local slot of the current buffer or window.
   */
  function ReadSlot(reg: Registry, store: Store, idx: OptIndex, local: bool, curbuf: int, curwin: int): (v: OptVal)
    requires InTable(reg, idx)
    ensures v != Nil ==> idx.At? && !IsHidden(reg, idx)
    ensures v != Nil ==>
      var c := if local then LocalCell(reg, idx.i, curbuf, curwin) else GlobalCell(idx.i);
      c in store && store[c] == v
    ensures idx.At? && !IsHidden(reg, idx) ==>
      var c := if local then LocalCell(reg, idx.i, curbuf, curwin) else GlobalCell(idx.i);
      c in store ==> v == store[c]
  {
    if idx.Invalid? || IsHidden(reg, idx) then Nil
    else if local then Lookup(store, LocalCell(reg, idx.i, curbuf, curwin))
    else Lookup(store, GlobalCell(idx.i))
  }

  /**
   * get_option_value: with an explicit scope the value of that slot; with no scope the
   * local value when the current buffer or window has one, otherwise the global value.
   */
  function ReadValue(reg: Registry, store: Store, idx: OptIndex, scope: Scope, curbuf: int, curwin: int): OptVal
    requires InTable(reg, idx)
  {
    match scope
    case Global => ReadSlot(reg, store, idx, false, curbuf, curwin)
    case Local => ReadSlot(reg, store, idx, true, curbuf, curwin)
    case Unset =>
      if idx.At? && LocalCell(reg, idx.i, curbuf, curwin) in store then ReadSlot(reg, store, idx, true, curbuf, curwin)
      else ReadSlot(reg, store, idx, false, curbuf, curwin)
  }

  /**
   * The storing part of set_option_value: OPT_GLOBAL writes the global slot, OPT_LOCAL the
   * local slot of the current buffer or window, no scope writes both. An invalid or hidden
   * option stores nothing.
   */
  function WriteValue(reg: Registry, store: Store, idx: OptIndex, v: OptVal, scope: Scope, curbuf: int, curwin: int): Store
    requires InTable(reg, idx)
  {
    if idx.Invalid? || IsHidden(reg, idx) then store
    else
      var g := GlobalCell(idx.i);
      var l := LocalCell(reg, idx.i, curbuf, curwin);
      match scope
      case Global => store[g := v]
      case Local => store[l := v]
      case Unset => store[g := v][l := v]
  }

  /** A value stored with an explicit scope, or with none, is what a read at that scope returns. */
  lemma ReadAfterWrite(reg: Registry, store: Store, idx: OptIndex, v: OptVal, scope: Scope, curbuf: int, curwin: int)
    requires InTable(reg, idx) && idx.At? && !IsHidden(reg, idx)
    ensures ReadValue(reg, WriteValue(reg, store, idx, v, scope, curbuf, curwin), idx, scope, curbuf, curwin) == v
  {
  }

  /**
   * An unscoped read returns the local value if the current buffer or window has one, and
   * otherwise the global value; a local value, once stored, shadows the global value.
   */
  lemma LocalShadowsGlobal(reg: Registry, store: Store, idx: OptIndex, v: OptVal, curbuf: int, curwin: int)
    requires InTable(reg, idx) && idx.At? && !IsHidden(reg, idx)
    ensures ReadValue(reg, WriteValue(reg, store, idx, v, Local, curbuf, curwin), idx, Unset, curbuf, curwin) == v
    ensures LocalCell(reg, idx.i, curbuf, curwin) in store ==>
      ReadValue(reg, store, idx, Unset, curbuf, curwin) == store[LocalCell(reg, idx.i, curbuf, curwin)]
    ensures LocalCell(reg, idx.i, curbuf, curwin) !in store ==>
      ReadValue(reg, store, idx, Unset, curbuf, curwin) == Lookup(store, GlobalCell(idx.i))
  {
  }
}

=== FILE: requests.dfy ===
/**
 * The top-level request flows: nvim_get_option_value (with the dummy filetype buffer of
 * do_ft_buf), nvim_set_option_value and the target selection of nvim_get_option_info2.
 */
module Requests {
  import opened OptionTypes
  import opened Capability
  import opened Validator
  import opened Context

  const AllocFailedMsg := Text("Could not create internal buffer")
  const BadValueTypeMsg := InvalidExpected("value", "valid option type")

  function BadOption(name: string): Error { Err(Validation, InvalidValue("option", name)) }

  /** The dummy buffer's outcome: the state afterwards, the buffer if one was made, and the saved context. */
  datatype FtProbe = FtProbe(st: State, ftbuf: Option<int>, saved: Saved)

  /**
   * do_ft_buf: with no filetype nothing happens; otherwise a fresh unlisted buffer is
   * allocated (or "Could not create internal buffer" is recorded), made current through
   * aucmd_prepbuf, and the FileType autocommands run on it and may leave an error.
   */
  function ProbeFiletype(s: State, filetype: Option<string>, o: Oracle): FtProbe {
    var saved := Saved(s.curwin, s.curbuf);
    if filetype.None? then FtProbe(s, None, saved)
    else if !o.bufAllocOk then FtProbe(s.(err := Err(Exception, AllocFailedMsg)), None, saved)
    else
      var b := s.nextBuf;
      var s1 := s.(buffers := s.buffers + {b}, nextBuf := b + 1, curbuf := b);
      var s2 := s1.(store := ProbeStore(s.store, b, o.ftLocals));
      var s3 := if o.ftErr.Some? then s2.(err := Err(Exception, Text(o.ftErr.value))) else s2;
      FtProbe(s3, Some(b), saved)
  }

  /** The buffer-local values the FileType autocommands give the dummy buffer `b`. */
  function ProbeStore(store: Store, b: int, locals: map<nat, OptVal>): Store {
    store + map i | i in locals :: BufCell(b, i) := locals[i]
  }

  /** wipe_buffer frees the buffer-local values of buffer `b`. */
  function WipeCells(store: Store, b: int): Store {
    map c | c in store && !(c.BufCell? && c.buf == b) :: store[c]
  }

  /** aucmd_restbuf followed by wipe_buffer on the dummy buffer. */
  function RestoreAndWipe(s: State, ft: FtProbe): State {
    if ft.ftbuf.Some? then
      s.(curwin := ft.saved.win, curbuf := ft.saved.buf, buffers := s.buffers - {ft.ftbuf.value},
         store := WipeCells(s.store, ft.ftbuf.value))
    else s
  }

  /** nvim_get_option_value: the state afterwards and the returned object (Nil for an empty object). */
  function GetOptionValue(w: World, s: State, name: string, opts: Opts, o: Oracle): (State, OptVal) {
    var v := Validate(w.reg, w.windows, s.buffers, opts, name, true, s.err);
    if v.Rejected? then (s.(err := v.err), Nil)
    else
      var ft := ProbeFiletype(s.(err := v.err), v.filetype, o);
      if ft.st.err.IsSet() then (ft.st, Nil)
      else
        var from := if ft.ftbuf.Some? then Buf(ft.ftbuf.value) else v.from;
        var got := GetFor(w, ft.st, v.optIdx, v.scope, v.req, from, o);
        var hidden := IsHidden(w.reg, v.optIdx);
        var s' := RestoreAndWipe(got.0, ft);
        if s'.err.IsSet() then (s', Nil)
        else if hidden || got.1 == Nil then (s'.(err := BadOption(name)), Nil)
        else (s', got.1)
  }

  /** The scope nvim_set_option_value passes on: local for a window request with no scope on an option with a global value. */
  function SetScope(w: World, v: Validated): Scope
    requires v.Accepted? && InTable(w.reg, v.optIdx)
  {
    if v.req == ReqWin && v.scope == Unset && AttrsOf(w.reg, v.optIdx).global then Local else v.scope
  }

  /**
   * nvim_set_option_value. `value` is the result of object_as_optval: None when the
   * object has no option type.
   */
  function SetOptionValue(w: World, s: State, name: string, value: Option<OptVal>, opts: Opts, o: Oracle): State {
    var v := Validate(w.reg, w.windows, s.buffers, opts, name, false, s.err);
    if v.Rejected? then s.(err := v.err)
    else if value.None? then s.(err := Err(Validation, BadValueTypeMsg))
    else SetFor(w, s.(err := v.err), v.optIdx, value.value, SetScope(w, v), v.req, v.from, o)
  }

  /** What nvim_get_option_info2 hands to get_vimoption: the scope and the buffer and window to report on. */
  datatype InfoTarget = NoInfo | InfoFor(scope: Scope, buf: int, win: int)

  /** nvim_get_option_info2, up to the call that builds the dictionary. */
  function GetOptionInfoTarget(w: World, s: State, name: string, opts: Opts): (State, InfoTarget) {
    var v := Validate(w.reg, w.windows, s.buffers, opts, name, false, s.err);
    if v.Rejected? then (s.(err := v.err), NoInfo)
    else
      var buf := if v.req == ReqBuf then v.from.buf else s.curbuf;
      var win := if v.req == ReqWin then v.from.win else s.curwin;
      (s.(err := v.err), InfoFor(v.scope, buf, win))
  }

  /** Buffer handles below `nextBuf` are taken; the dummy buffer gets a fresh one with no stored values. */
  predicate HandlesBelow(s: State) {
    && s.curbuf < s.nextBuf
    && (forall b :: b in s.buffers ==> b < s.nextBuf)
    && (forall c :: c in s.store && c.BufCell? ==> c.buf < s.nextBuf)
  }

  // ---------------------------------------------------------------------------------
  // Properties of nvim_get_option_value

  /** Every get either returns a value with the error slot empty, or Nil with an error recorded. */
  lemma GetValueOrError(w: World, s: State, name: string, opts: Opts, o: Oracle)
    requires s.err == NoError
    ensures var (s', r) := GetOptionValue(w, s, name, opts, o);
      (r != Nil ==> !s'.err.IsSet()) && (r == Nil ==> s'.err.IsSet())
  {
  }

  /** A hidden option is never returned: it has no attributes, so validation already records it as unknown. */
  lemma HiddenOptionNeverReturned(w: World, s: State, name: string, opts: Opts, o: Oracle)
    requires s.err == NoError
    requires IsHidden(w.reg, FindOption(w.reg, name))
    ensures GetOptionValue(w, s, name, opts, o).1 == Nil
    ensures GetOptionValue(w, s, name, opts, o).0.err.IsSet()
  {
  }

  /** A read that comes back Nil, with no earlier error, ends in the "option" validation error. */
  lemma GetRejectsNilRead(w: World, s: State, name: string, opts: Opts, o: Oracle)
    requires s.err == NoError
    requires var v := Validate(w.reg, w.windows, s.buffers, opts, name, true, s.err);
      v.Accepted? && v.err == NoError && v.filetype.None?
      && (v.req != ReqWin || v.from.win == s.curwin || o.winSwitchOk)
    requires var v := Validate(w.reg, w.windows, s.buffers, opts, name, true, s.err);
      var sw := Switch(w, s, v.req, v.from, o);
      ReadValue(w.reg, sw.st.store, v.optIdx, v.scope, sw.st.curbuf, sw.st.curwin) == Nil
    ensures GetOptionValue(w, s, name, opts, o) == (s.(err := BadOption(name)), Nil)
  {
  }

  /** Without a filetype, a get leaves the current window and buffer as they were, on every path. */
  lemma GetWithoutFiletypeRestores(w: World, s: State, name: string, opts: Opts, o: Oracle)
    requires s.err == NoError && opts.filetype.None?
    ensures Here(GetOptionValue(w, s, name, opts, o).0) == Here(s)
    ensures GetOptionValue(w, s, name, opts, o).0.buffers == s.buffers
  {
    var v := Validate(w.reg, w.windows, s.buffers, opts, name, true, s.err);
    if v.Accepted? && !v.err.IsSet() {
      AccessorsRestoreWhenNoPriorError(w, s, v.optIdx, Nil, v.scope, v.req, v.from, o);
    }
  }

  /**
   * A filetype get whose option is known and whose dummy buffer is made without error
   * reads the option in the dummy buffer, then restores the window and buffer and wipes
   * the dummy buffer, which is then not current.
   */
  lemma GetWithFiletypeCleansUp(w: World, s: State, name: string, opts: Opts, o: Oracle)
    requires s.err == NoError && HandlesBelow(s)
    requires opts.filetype.Some?
    requires var v := Validate(w.reg, w.windows, s.buffers, opts, name, true, s.err);
      v.Accepted? && v.err == NoError
    requires o.bufAllocOk && o.ftErr.None?
    ensures var (s', r) := GetOptionValue(w, s, name, opts, o);
      var v := Validate(w.reg, w.windows, s.buffers, opts, name, true, s.err);
      && Here(s') == Here(s)
      && s'.buffers == s.buffers
      && s'.curbuf != s.nextBuf
      && s'.store == s.store
      && r == ReadValue(w.reg, ProbeStore(s.store, s.nextBuf, o.ftLocals), v.optIdx, Unset, s.nextBuf, s.curwin)
  {
    WipeUndoesProbe(s.store, s.nextBuf, o.ftLocals);
  }

  /**
   * A filetype get for which validation recorded an option error (an unknown option, say)
   * makes the dummy buffer current and then returns at the error check that follows
   * do_ft_buf: the window and buffer are not restored and the dummy buffer is not wiped.
   */
  lemma GetWithFiletypeLeaksOnOptionError(w: World, s: State, name: string, opts: Opts, o: Oracle)
    requires s.err == NoError
    requires opts.filetype.Some?
    requires var v := Validate(w.reg, w.windows, s.buffers, opts, name, true, s.err);
      v.Accepted? && v.err.IsSet()
    requires o.bufAllocOk
    ensures var (s', r) := GetOptionValue(w, s, name, opts, o);
      var v := Validate(w.reg, w.windows, s.buffers, opts, name, true, s.err);
      && r == Nil
      && s'.curwin == s.curwin && s'.curbuf == s.nextBuf
      && s'.buffers == s.buffers + {s.nextBuf}
      && s'.store == ProbeStore(s.store, s.nextBuf, o.ftLocals)
      && s'.err == (if o.ftErr.Some? then Err(Exception, Text(o.ftErr.value)) else v.err)
  {
  }

  /**
   * The same leak when validation was clean but the FileType autocommands leave an error:
   * the dummy buffer stays current and allocated, with the values they set.
   */
  lemma GetWithFiletypeLeaksOnAutocmdError(w: World, s: State, name: string, opts: Opts, o: Oracle)
    requires s.err == NoError
    requires opts.filetype.Some?
    requires Validate(w.reg, w.windows, s.buffers, opts, name, true, s.err).Accepted?
    requires o.bufAllocOk && o.ftErr.Some?
    ensures var (s', r) := GetOptionValue(w, s, name, opts, o);
      && r == Nil
      && s'.curwin == s.curwin && s'.curbuf == s.nextBuf
      && s'.buffers == s.buffers + {s.nextBuf}
      && s'.store == ProbeStore(s.store, s.nextBuf, o.ftLocals)
      && s'.err == Err(Exception, Text(o.ftErr.value))
  {
  }

  /**
   * A filetype get whose dummy buffer cannot be allocated records "Could not create
   * internal buffer" before any switch and returns at the error check that follows
   * do_ft_buf: the window, buffer, buffer list and store are as they were.
   */
  lemma GetWithFiletypeAllocFailRestores(w: World, s: State, name: string, opts: Opts, o: Oracle)
    requires s.err == NoError
    requires opts.filetype.Some? && !o.bufAllocOk
    requires var v := Validate(w.reg, w.windows, s.buffers, opts, name, true, s.err);
      v.Accepted? && v.err == NoError
    ensures var (s', r) := GetOptionValue(w, s, name, opts, o);
      && Here(s') == Here(s) && s'.buffers == s.buffers && s'.store == s.store
      && r == Nil && s'.err == Err(Exception, AllocFailedMsg)
  {
  }

  /** Wiping a fresh buffer's values after the probe gives back the store as it was. */
  lemma WipeUndoesProbe(store: Store, b: int, locals: map<nat, OptVal>)
    requires forall c :: c in store && c.BufCell? ==> c.buf != b
    ensures WipeCells(ProbeStore(store, b, locals), b) == store
  {
    var p := ProbeStore(store, b, locals);
    var r := WipeCells(p, b);
    forall c | c in store ensures c in r && r[c] == store[c] {
      assert !(c.BufCell? && c.buf == b);
    }
    assert r.Keys == store.Keys;
  }

  /** A cell of the probed store: the autocommands' value in the dummy buffer, the old content elsewhere. */
  lemma ProbeCell(store: Store, b: int, locals: map<nat, OptVal>, c: Cell)
    ensures c in ProbeStore(store, b, locals) <==> (c in store || (c.BufCell? && c.buf == b && c.opt in locals))
    ensures Lookup(ProbeStore(store, b, locals), c)
         == if c.BufCell? && c.buf == b && c.opt in locals then locals[c.opt] else Lookup(store, c)
  {
    var m := map i | i in locals :: BufCell(b, i) := locals[i];
    if c.BufCell? && c.buf == b && c.opt in locals {
      assert c == BufCell(b, c.opt) && c in m;
    } else {
      assert c !in m;
    }
  }

  /** What a read sees in the dummy buffer does not depend on which fresh handle the buffer got. */
  lemma ProbeReadIndependent(reg: Registry, store: Store, idx: OptIndex, b1: int, b2: int, curwin: int, locals: map<nat, OptVal>)
    requires InTable(reg, idx)
    requires forall c :: c in store && c.BufCell? ==> c.buf != b1 && c.buf != b2
    ensures ReadValue(reg, ProbeStore(store, b1, locals), idx, Unset, b1, curwin)
         == ReadValue(reg, ProbeStore(store, b2, locals), idx, Unset, b2, curwin)
  {
    if idx.At? && !IsHidden(reg, idx) {
      var i := idx.i;
      var c1, c2 := LocalCell(reg, i, b1, curwin), LocalCell(reg, i, b2, curwin);
      ProbeCell(store, b1, locals, c1);
      ProbeCell(store, b2, locals, c2);
      ProbeCell(store, b1, locals, GlobalCell(i));
      ProbeCell(store, b2, locals, GlobalCell(i));
      if reg[i].indir.buf && !reg[i].indir.win {
        assert c1 !in store && c2 !in store;
      } else {
        assert c1 == c2;
      }
    }
  }

  /**
   * Two filetype gets in a row, each starting with an empty error slot as every API call
   * does, leave no buffer behind and return the same value.
   */
  lemma FiletypeGetTwice(w: World, s: State, name: string, opts: Opts, o: Oracle)
    requires s.err == NoError && HandlesBelow(s)
    requires opts.filetype.Some?
    requires var v := Validate(w.reg, w.windows, s.buffers, opts, name, true, s.err);
      v.Accepted? && v.err == NoError
    requires o.bufAllocOk && o.ftErr.None?
    ensures var (s1, r1) := GetOptionValue(w, s, name, opts, o);
      var (s2, r2) := GetOptionValue(w, s1.(err := NoError), name, opts, o);
      s2.buffers == s.buffers && Here(s2) == Here(s) && r2 == r1
  {
    var (s1, r1) := GetOptionValue(w, s, name, opts, o);
    GetWithFiletypeCleansUp(w, s, name, opts, o);
    var t := s1.(err := NoError);
    assert t == s.(nextBuf := s.nextBuf + 1);
    assert HandlesBelow(t);
    GetWithFiletypeCleansUp(w, t, name, opts, o);
    var v := Validate(w.reg, w.windows, s.buffers, opts, name, true, s.err);
    ProbeReadIndependent(w.reg, s.store, v.optIdx, s.nextBuf, s.nextBuf + 1, s.curwin, o.ftLocals);
  }

  // ---------------------------------------------------------------------------------
  // Properties of nvim_set_option_value

  /**
   * A window request with no scope never changes the option's global value: the scope is
   * forced to local when the option has a global value, and the option must be
   * window-local to pass validation at all.
   */
  lemma SetOnWindowKeepsGlobal(w: World, s: State, name: string, value: Option<OptVal>, opts: Opts, o: Oracle, i: nat)
    requires s.err == NoError && opts.win.Some? && opts.scope.None?
    requires AttrsOf(w.reg, FindOption(w.reg, name)).global
    ensures var v := Validate(w.reg, w.windows, s.buffers, opts, name, false, s.err);
      v.Accepted? && AttrsOf(w.reg, v.optIdx).global ==> SetScope(w, v) == Local
    ensures Lookup(SetOptionValue(w, s, name, value, opts, o).store, GlobalCell(i)) == Lookup(s.store, GlobalCell(i))
  {
  }

  /** With a clean validation and a convertible value, a set leaves the current window and buffer as they were. */
  lemma SetRestoresWithoutOptionError(w: World, s: State, name: string, value: Option<OptVal>, opts: Opts, o: Oracle)
    requires s.err == NoError
    requires var v := Validate(w.reg, w.windows, s.buffers, opts, name, false, s.err);
      v.Rejected? || v.err == NoError || value.None?
    ensures Here(SetOptionValue(w, s, name, value, opts, o)) == Here(s)
  {
    var v := Validate(w.reg, w.windows, s.buffers, opts, name, false, s.err);
    if v.Accepted? && value.Some? {
      AccessorsRestoreWhenNoPriorError(w, s, v.optIdx, value.value, SetScope(w, v), v.req, v.from, o);
    }
  }

  /**
   * A set on another buffer whose validation records an option error (an unknown option,
   * say) switches to that buffer and returns without switching back.
   */
  lemma SetLeaksBufferOnOptionError(w: World, s: State, name: string, value: OptVal, b: int, o: Oracle)
    requires s.err == NoError && b in s.buffers && b != s.curbuf
    requires Validate(w.reg, w.windows, s.buffers, Opts(None, None, Some(b), None), name, false, s.err).err.IsSet()
    ensures var s' := SetOptionValue(w, s, name, Some(value), Opts(None, None, Some(b), None), o);
      s'.curbuf == b && s'.store == s.store && s'.err.IsSet()
  {
  }

  /**
   * A set with `win` on another window for an option that has no window value: validation
   * records "cannot be passed" and returns OK. If the window switch succeeds, that window
   * and its buffer stay current and nothing is stored; if it fails without a try_end error,
   * the context is rolled back and the validation error is kept.
   */
  lemma SetOnWindowOptionErrorSkipsRestore(w: World, s: State, name: string, value: OptVal, win: int, o: Oracle)
    requires s.err == NoError && win in w.windows && win != s.curwin
    requires var attrs := AttrsOf(w.reg, FindOption(w.reg, name)); !attrs.IsZero() && !attrs.win
    ensures var opts := Opts(None, Some(win), None, None);
      var s' := SetOptionValue(w, s, name, Some(value), opts, o);
      var v := Validate(w.reg, w.windows, s.buffers, opts, name, false, s.err);
      && v.Accepted? && v.err == Err(Validation, CannotPassMsg(ReqWin, AttrsOf(w.reg, FindOption(w.reg, name)), name))
      && s'.store == s.store && s'.buffers == s.buffers
      && (o.winSwitchOk ==> s'.curwin == win && s'.curbuf == BufferOf(w, win, s.curbuf) && s'.err == v.err)
      && (!o.winSwitchOk && o.tryEndErr.None? ==> Here(s') == Here(s) && s'.err == v.err)
  {
  }

  /**
   * Get after set: with a clean validation, a convertible value, no setter error and a
   * window switch that can happen, a get with the same options returns the value set. On
   * a window request with no scope the set is forced to local scope, and the unscoped get
   * then finds that local value.
   */
  lemma SetThenGet(w: World, s: State, name: string, value: OptVal, opts: Opts, o: Oracle)
    requires s.err == NoError && value != Nil && o.setErr.None? && opts.filetype.None?
    requires var v := Validate(w.reg, w.windows, s.buffers, opts, name, false, s.err);
      v.Accepted? && v.err == NoError && (v.req != ReqWin || v.from.win == s.curwin || o.winSwitchOk)
    ensures GetOptionValue(w, SetOptionValue(w, s, name, Some(value), opts, o), name, opts, o).1 == value
  {
    var v := Validate(w.reg, w.windows, s.buffers, opts, name, false, s.err);
    var idx := v.optIdx;
    assert !AttrsOf(w.reg, idx).IsZero();
    assert idx.At? && !IsHidden(w.reg, idx);
    var scope := SetScope(w, v);
    var s1 := SetOptionValue(w, s, name, Some(value), opts, o);
    assert s1 == SetFor(w, s, idx, value, scope, v.req, v.from, o);
    AccessorsRestoreWhenNoPriorError(w, s, idx, value, scope, v.req, v.from, o);
    var sw := Switch(w, s, v.req, v.from, o);
    ReadAfterWrite(w.reg, sw.st.store, idx, value, scope, sw.st.curbuf, sw.st.curwin);
    LocalShadowsGlobal(w.reg, sw.st.store, idx, value, sw.st.curbuf, sw.st.curwin);
    var v1 := Validate(w.reg, w.windows, s1.buffers, opts, name, true, s1.err);
    assert v1 == Accepted(idx, v.scope, v.req, v.from, None, NoError);
  }

  /**
   * Set then get on the same buffer of a buffer-local option returns the value set, and
   * the buffer's value is what an explicit local get reports too.
   */
  lemma SetThenGetOnBuffer(w: World, s: State, name: string, value: OptVal, b: int, o: Oracle)
    requires s.err == NoError && b in s.buffers && value != Nil && o.setErr.None?
    requires var idx := FindOption(w.reg, name);
      idx.At? && !IsHidden(w.reg, idx) && w.reg[idx.i].indir.buf && !w.reg[idx.i].indir.win
    ensures var s1 := SetOptionValue(w, s, name, Some(value), Opts(None, None, Some(b), None), o);
      && s1.err == NoError && Here(s1) == Here(s)
      && GetOptionValue(w, s1, name, Opts(None, None, Some(b), None), o).1 == value
  {
    var opts := Opts(None, None, Some(b), None);
    var idx := FindOption(w.reg, name);
    var v := Validate(w.reg, w.windows, s.buffers, opts, name, false, s.err);
    assert AttrsOf(w.reg, idx).buf;
    assert v.Accepted? && v.err == NoError && v.scope == Local && v.req == ReqBuf && v.from == Buf(b);
    var s1 := SetOptionValue(w, s, name, Some(value), opts, o);
    assert s1 == SetFor(w, s, idx, value, Local, ReqBuf, Buf(b), o);
    AccessorsRestoreWhenNoPriorError(w, s, idx, value, Local, ReqBuf, Buf(b), o);
    SetForThenGetFor(w, s, idx, value, Local, ReqBuf, Buf(b), o);
    var v1 := Validate(w.reg, w.windows, s1.buffers, opts, name, true, s1.err);
    assert v1 == Accepted(idx, Local, ReqBuf, Buf(b), None, NoError);
  }

  // ---------------------------------------------------------------------------------
  // Properties of nvim_get_option_info2

  /** The buffer reported on is the `buf` target or the current buffer, the window the `win` target or the current window. */
  lemma InfoTargetChoice(w: World, s: State, name: string, opts: Opts)
    requires Validate(w.reg, w.windows, s.buffers, opts, name, false, s.err).Accepted?
    ensures var (s', t) := GetOptionInfoTarget(w, s, name, opts);
      && t.InfoFor?
      && t.buf == (if opts.buf.Some? then opts.buf.value else s.curbuf)
      && t.win == (if opts.win.Some? then opts.win.value else s.curwin)
      && Here(s') == Here(s)
  {
  }
}

=== FILE: validator.dfy ===
/**
 * The request validator (validate_option_value_args) as a function of the request, the
 * existing windows and buffers, the option table and the error slot it starts with.
 */
module Validator {
  import opened OptionTypes
  import opened Capability

  const InvalidScopeMsg := InvalidExpected("scope", "'local' or 'global'")
  const FiletypeExclusiveMsg := Text("cannot use 'filetype' with 'scope', 'buf' or 'win'")
  const ScopeAndBufMsg := Text("cannot use both 'scope' and 'buf'")
  const BufAndWinMsg := Text("cannot use both 'buf' and 'win'")

  function UnknownOptionMsg(name: string): Message {
    Text("Unknown option '" + name + "'")
  }

  /** "'buf'|'win' cannot be passed for [global ][buffer-local |window-local ]option 'name'" */
  function CannotPassMsg(req: ReqScope, attrs: Attrs, name: string): Message {
    var tgt := if req == ReqBuf then "buf" else "win";
    var global := if attrs.global then "global " else "";
    var kind := if attrs.buf then "buffer-local " else if attrs.win then "window-local " else "";
    Text("'" + tgt + "' cannot be passed for " + global + kind + "option '" + name + "'")
  }

  /** The error find_window_by_handle / find_buffer_by_handle records for an unknown handle. */
  function BadWindow(h: int): Error { Err(Validation, InvalidHandle("window", h)) }
  function BadBuffer(h: int): Error { Err(Validation, InvalidHandle("buffer", h)) }

  /**
   * The outcome of validation: FAIL with the error slot's new content, or OK with the
   * outputs and the error slot, which may hold an option error even though OK is returned.
   */
  datatype Validated =
    | Rejected(err: Error)
    | Accepted(optIdx: OptIndex, scope: Scope, req: ReqScope, from: Target, filetype: Option<string>, err: Error)

  function ScopeOf(keyword: Option<string>): Scope {
    if keyword == Some("local") then Local
    else if keyword == Some("global") then Global
    else Unset
  }

  predicate GoodScopeKeyword(keyword: Option<string>) {
    keyword.None? || keyword.value == "local" || keyword.value == "global"
  }

  /** The error recorded after the handles are accepted: the option checks of the last step. */
  function OptionCheck(attrs: Attrs, req: ReqScope, name: string, err0: Error): Error {
    if attrs.IsZero() then Err(Validation, UnknownOptionMsg(name))
    else if (req == ReqBuf && !attrs.buf) || (req == ReqWin && !attrs.win) then
      Err(Validation, CannotPassMsg(req, attrs, name))
    else err0
  }

  /**
   * validate_option_value_args. `wantFiletype` says whether the caller passed a place for
   * the filetype; the exclusivity check on `filetype` applies either way.
   */
  function Validate(reg: Registry, windows: set<int>, buffers: set<int>, opts: Opts, name: string,
                    wantFiletype: bool, err0: Error): (v: Validated)
    ensures v.Accepted? ==> InTable(reg, v.optIdx)
    ensures v.Accepted? ==> (v.req == ReqWin <==> v.from.Win?) && (v.req == ReqBuf <==> v.from.Buf?)
    ensures v.Accepted? && v.filetype.Some? ==> v.req == ReqGlobal && v.scope == Unset
  {
    if !GoodScopeKeyword(opts.scope) then Rejected(Err(Validation, InvalidScopeMsg))
    else if opts.win.Some? && opts.win.value !in windows then Rejected(BadWindow(opts.win.value))
    else if opts.win.Some? && err0.IsSet() then Rejected(err0)
    else if opts.buf.Some? && opts.buf.value !in buffers then Rejected(BadBuffer(opts.buf.value))
    else if opts.buf.Some? && err0.IsSet() then Rejected(err0)
    else if opts.filetype.Some? && (opts.buf.Some? || opts.scope.Some? || opts.win.Some?) then
      Rejected(Err(Validation, FiletypeExclusiveMsg))
    else if opts.scope.Some? && opts.buf.Some? then Rejected(Err(Validation, ScopeAndBufMsg))
    else if opts.win.Some? && opts.buf.Some? then Rejected(Err(Validation, BufAndWinMsg))
    else
      var scope := if opts.buf.Some? then Local else ScopeOf(opts.scope);
      var req := if opts.buf.Some? then ReqBuf else if opts.win.Some? then ReqWin else ReqGlobal;
      var from := if opts.buf.Some? then Buf(opts.buf.value) else if opts.win.Some? then Win(opts.win.value) else NoTarget;
      var idx := FindOption(reg, name);
      Accepted(idx, scope, req, from, if wantFiletype then opts.filetype else None,
               OptionCheck(AttrsOf(reg, idx), req, name, err0))
  }

  /** A scope keyword other than "local" or "global" fails first, whatever else the request holds. */
  lemma BadScopeFailsFirst(reg: Registry, windows: set<int>, buffers: set<int>, opts: Opts, name: string, wantFiletype: bool, err0: Error)
    requires opts.scope.Some? && opts.scope.value != "local" && opts.scope.value != "global"
    ensures Validate(reg, windows, buffers, opts, name, wantFiletype, err0) == Rejected(Err(Validation, InvalidScopeMsg))
  {
  }

  /** "local" and "global" select OPT_LOCAL and OPT_GLOBAL. */
  lemma ScopeKeywordParsed(reg: Registry, windows: set<int>, buffers: set<int>, opts: Opts, name: string, wantFiletype: bool, err0: Error)
    requires opts.scope == Some("local") || opts.scope == Some("global")
    requires Validate(reg, windows, buffers, opts, name, wantFiletype, err0).Accepted?
    ensures var v := Validate(reg, windows, buffers, opts, name, wantFiletype, err0);
      v.scope == (if opts.scope == Some("local") then Local else Global)
  {
  }

  /**
   * The target outputs: no handle gives a Global request with no target, `win` a Win
   * request on that window, and `buf` a local-scope Buf request on that buffer.
   */
  lemma TargetOutputs(reg: Registry, windows: set<int>, buffers: set<int>, opts: Opts, name: string, wantFiletype: bool, err0: Error)
    requires Validate(reg, windows, buffers, opts, name, wantFiletype, err0).Accepted?
    ensures var v := Validate(reg, windows, buffers, opts, name, wantFiletype, err0);
      && (opts.win.None? && opts.buf.None? ==> v.req == ReqGlobal && v.from == NoTarget && v.scope == ScopeOf(opts.scope))
      && (opts.win.Some? ==> v.req == ReqWin && v.from == Win(opts.win.value) && opts.win.value in windows)
      && (opts.buf.Some? ==> v.scope == Local && v.req == ReqBuf && v.from == Buf(opts.buf.value) && opts.buf.value in buffers)
      && v.optIdx == FindOption(reg, name)
  {
  }

  /** A handle that does not resolve fails with the lookup's own error, before any exclusivity check. */
  lemma InvalidHandlePrecedes(reg: Registry, windows: set<int>, buffers: set<int>, opts: Opts, name: string, wantFiletype: bool, err0: Error)
    requires GoodScopeKeyword(opts.scope)
    requires (opts.win.Some? && opts.win.value !in windows) || (opts.buf.Some? && opts.buf.value !in buffers)
    ensures var v := Validate(reg, windows, buffers, opts, name, wantFiletype, err0);
      && v.Rejected?
      && (opts.win.Some? && opts.win.value !in windows ==> v.err == BadWindow(opts.win.value))
      && (opts.win.None? || (opts.win.value in windows && !err0.IsSet()) ==> v.err == BadBuffer(opts.buf.value))
  {
  }

  /**
   * With a fresh error slot and handles that resolve, the three exclusivity rules are
   * checked in order: filetype against buf/scope/win, then scope against buf, then buf
   * against win.
   */
  lemma ExclusivityOrder(reg: Registry, windows: set<int>, buffers: set<int>, opts: Opts, name: string, wantFiletype: bool)
    requires GoodScopeKeyword(opts.scope)
    requires opts.win.Some? ==> opts.win.value in windows
    requires opts.buf.Some? ==> opts.buf.value in buffers
    ensures var v := Validate(reg, windows, buffers, opts, name, wantFiletype, NoError);
      && (opts.filetype.Some? && (opts.buf.Some? || opts.scope.Some? || opts.win.Some?) ==>
            v == Rejected(Err(Validation, FiletypeExclusiveMsg)))
      && (opts.filetype.None? && opts.scope.Some? && opts.buf.Some? ==>
            v == Rejected(Err(Validation, ScopeAndBufMsg)))
      && (opts.filetype.None? && opts.scope.None? && opts.win.Some? && opts.buf.Some? ==>
            v == Rejected(Err(Validation, BufAndWinMsg)))
  {
  }

  /** With a fresh error slot, validation returns OK exactly when no rule rejects the request shape. */
  lemma AcceptedIff(reg: Registry, windows: set<int>, buffers: set<int>, opts: Opts, name: string, wantFiletype: bool)
    ensures Validate(reg, windows, buffers, opts, name, wantFiletype, NoError).Accepted? <==>
      && GoodScopeKeyword(opts.scope)
      && (opts.win.Some? ==> opts.win.value in windows)
      && (opts.buf.Some? ==> opts.buf.value in buffers)
      && (opts.filetype.Some? ==> opts.buf.None? && opts.scope.None? && opts.win.None?)
      && !(opts.scope.Some? && opts.buf.Some?)
      && !(opts.win.Some? && opts.buf.Some?)
  {
  }

  /**
   * OK is returned even for an unknown or hidden option, or a target the option does not
   * support: the error is only recorded in the slot.
   */
  lemma OptionErrorsStillOk(reg: Registry, windows: set<int>, buffers: set<int>, opts: Opts, name: string, wantFiletype: bool, err0: Error)
    requires Validate(reg, windows, buffers, opts, name, wantFiletype, err0).Accepted?
    ensures var v := Validate(reg, windows, buffers, opts, name, wantFiletype, err0);
      var attrs := AttrsOf(reg, v.optIdx);
      && InTable(reg, v.optIdx)
      && (attrs.IsZero() ==> v.err == Err(Validation, UnknownOptionMsg(name)))
      && (!attrs.IsZero() && v.req == ReqBuf && !attrs.buf ==> v.err == Err(Validation, CannotPassMsg(ReqBuf, attrs, name)))
      && (!attrs.IsZero() && v.req == ReqWin && !attrs.win ==> v.err == Err(Validation, CannotPassMsg(ReqWin, attrs, name)))
      && (!attrs.IsZero() && (v.req == ReqGlobal || (v.req == ReqBuf && attrs.buf) || (v.req == ReqWin && attrs.win)) ==> v.err == err0)
  {
  }

  /** An option absent from the table is reported as unknown, by name. */
  lemma UnknownNameReported(reg: Registry, windows: set<int>, buffers: set<int>, opts: Opts, name: string, wantFiletype: bool, err0: Error)
    requires forall j :: 0 <= j < |reg| ==> reg[j].fullname != name
    requires Validate(reg, windows, buffers, opts, name, wantFiletype, err0).Accepted?
    ensures Validate(reg, windows, buffers, opts, name, wantFiletype, err0).optIdx == Invalid
    ensures Validate(reg, windows, buffers, opts, name, wantFiletype, err0).err
            == Err(Validation, Text("Unknown option '" + name + "'"))
  {
  }

  /** Passing `win` or `buf` for a global-only option names it as a global option. */
  lemma GlobalOnlyTargetRejected(reg: Registry, windows: set<int>, buffers: set<int>, opts: Opts, name: string, wantFiletype: bool, err0: Error)
    requires Validate(reg, windows, buffers, opts, name, wantFiletype, err0).Accepted?
    requires var idx := FindOption(reg, name);
      idx.At? && !IsHidden(reg, idx) && reg[idx.i].indir.IsNone()
    requires opts.win.Some? || opts.buf.Some?
    ensures Validate(reg, windows, buffers, opts, name, wantFiletype, err0).err ==
      Err(Validation, Text("'" + (if opts.buf.Some? then "buf" else "win") + "' cannot be passed for global option '" + name + "'"))
  {
    assert AttrsOf(reg, FindOption(reg, name)) == Attrs(true, false, false);
    GlobalOnlyText(if opts.buf.Some? then ReqBuf else ReqWin, name);
  }

  /** Passing `buf` for a window-local option (no global value) names it as window-local. */
  lemma BufForWindowOptionRejected(reg: Registry, windows: set<int>, buffers: set<int>, opts: Opts, name: string, wantFiletype: bool, err0: Error)
    requires Validate(reg, windows, buffers, opts, name, wantFiletype, err0).Accepted?
    requires var idx := FindOption(reg, name);
      idx.At? && !IsHidden(reg, idx) && reg[idx.i].indir.win && !reg[idx.i].indir.both
    requires opts.buf.Some?
    ensures Validate(reg, windows, buffers, opts, name, wantFiletype, err0).err ==
      Err(Validation, Text("'buf' cannot be passed for window-local option '" + name + "'"))
  {
    assert AttrsOf(reg, FindOption(reg, name)) == Attrs(false, true, false);
    BufForWindowLocalText(name);
  }

  /** The message text for `buf` on a window-local option, spelled out. */
  lemma BufForWindowLocalText(name: string)
    ensures CannotPassMsg(ReqBuf, Attrs(false, true, false), name)
         == Text("'buf' cannot be passed for window-local option '" + name + "'")
  {
    assert "'" + "buf" + "' cannot be passed for " == "'buf' cannot be passed for ";
    assert "'buf' cannot be passed for " + "" == "'buf' cannot be passed for ";
    assert "'buf' cannot be passed for " + "window-local " == "'buf' cannot be passed for window-local ";
    assert "'buf' cannot be passed for window-local " + "option '" == "'buf' cannot be passed for window-local option '";
  }

  /** The message text for a global-only option, spelled out. */
  lemma GlobalOnlyText(req: ReqScope, name: string)
    ensures CannotPassMsg(req, Attrs(true, false, false), name)
         == Text("'" + (if req == ReqBuf then "buf" else "win") + "' cannot be passed for global option '" + name + "'")
  {
    var tgt := if req == ReqBuf then "buf" else "win";
    assert "' cannot be passed for " + "global " + "" + "option '" == "' cannot be passed for global option '";
    assert "'" + tgt + "' cannot be passed for " + "global " + "" + "option '" + name + "'"
        == "'" + tgt + "' cannot be passed for global option '" + name + "'";
  }
}
